=== FILE: README.md ===
# RAG chat backend — a Dafny model

This project models the logic that the RAG automation backend owns itself:

- **The answering engine** (`RAGEngine`, backend/rag_engine.py). The engine
  holds four optional handles: embeddings, LLM, vector store and QA chain. It
  also has a one-shot `initialized` flag. `query` is a fallback ladder:
  1. initialise, or report that initialisation failed;
  2. use the QA chain's answer;
  3. use retrieval only (one hit, two hits, no hit, or a retrieval error);
  4. otherwise say the system is still initialising.

  `add_documents` adds chunks to the existing vector store, or creates a store
  when there is none.
- **Thread bookkeeping** (backend/main.py). `chat` derives a title, creates or
  bumps a thread and appends the two messages of an exchange. `get_threads`
  and `get_thread` list and read threads, defaulting the title to "Untitled".
  `delete_thread` removes a thread and its messages. The catch-all frontend
  route filters file names.

Every library call the engine makes is a field of `RagEngine.Backends`: a
function from the call's arguments to a `CallOutcome`, which is either the
returned value or the text of the raised exception. This covers the LangChain
import, HuggingFace, Chroma, the text splitter, the QA chain and similarity
search. The SQLite tables become `ThreadStore.Store`: a map from thread id to
row, plus the message rows in insertion order. `uuid4()` values and
`datetime.now().isoformat()` are parameters. Timestamps are compared the way
SQLite compares TEXT (`Text.LexLe`). SQL does not fix the order of rows with
equal keys, so the model leaves that order open too.

Modules: `Wrappers` (Option, CallOutcome, Result), `Text` (prefix, containment,
TEXT order), `Sorting` (ORDER BY as an insertion sort), `RagEngine`,
`ThreadStore`, `Api` (the `chat` handler) and `FrontendRoute`.

Three behaviours of the code are worth stating on their own:

- Every fallback template quotes the question: no hit, retrieval error and
  still initialising (`RagEngine.NoHitsAnswer`,
  `RagEngine.RetrievalErrorAnswer`,
  `RagEngine.NoRetrievalWithoutStoreAndEmbeddings`). Answers built from hits
  do not (`RagEngine.HitsAnswer`), and neither does the
  initialisation-failure answer (rag_engine.py:161), which carries only the
  error text (`RagEngine.InitFailureReported`).
- A retry of `_initialize` after a failed first attempt runs lines 60-65 and
  97-138 again. These lines can reset the embeddings or the vector store to
  None (`RagEngine.RetryCanDropEmbeddings`, `RagEngine.RetryCanDropStore`).
  Once the flag is set, nothing is dropped (`RagEngine.Query`).
- Only the QA chain can return an empty answer; every other tier answers with
  non-empty text (`RagEngine.OnlyGenerationCanBeEmpty`).

## Model

| member | source | states |
|---|---|---|
| `RagEngine.Initialize` | backend/rag_engine.py:53-88 | A call on an initialised engine changes nothing. The flag ends up set exactly when no exception escaped. A first initialisation always clears the LLM. A missing QA chain stays missing. When an error escapes, the vector store is left as it was. |
| `RagEngine.InitializeVectorstore` | backend/rag_engine.py:93-151 | Never sets the flag and never changes embeddings or LLM. Without an LLM it never touches the QA chain. Of the modelled calls, only the splitter's exception escapes, with its text, and then nothing changes. Without LangChain it is a no-op. |
| `RagEngine.New` | backend/rag_engine.py:36-48 | A new engine has no LLM and no QA chain. It is initialised exactly when LangChain is absent, the persisted index loaded, or the seed corpus was split. |
| `RagEngine.Query` | backend/rag_engine.py:156-215 | The engine changes only through `_initialize`, and not at all once initialised. An uninitialised engine that raises while initialising answers with the initialising template and the error text. |
| `RagEngine.AddDocuments` | backend/rag_engine.py:220-246 | Only the vector store can change. An existing store keeps its id and gains exactly the split chunks after its own. A created store holds exactly the split chunks. An escaping error comes only from the splitter and changes nothing. |
| `RagEngine.InitializeIdempotent` | backend/rag_engine.py:53-55 | After a successful initialisation, a second call is a no-op. |
| `RagEngine.SeedIndexHoldsSeedChunks` | backend/rag_engine.py:107-138 | With no persisted index, initialisation succeeds once the seed corpus is split. The store then holds exactly those chunks, or is absent if Chroma fails. |
| `RagEngine.NoGeneratorPreserved` | backend/rag_engine.py:73-88 | An engine with no LLM and no QA chain keeps having neither through `_initialize`, `query` and `add_documents`. |
| `RagEngine.DeployedEngineNeverGenerates` | backend/rag_engine.py:140-173 | For such an engine the QA chain's behaviour cannot change the answer or the new state. |
| `RagEngine.RetryCanDropEmbeddings` | backend/rag_engine.py:57-65 | Re-initialising an engine whose first attempt failed resets existing embeddings to None when HuggingFace now raises. |
| `RagEngine.RetryCanDropStore` | backend/rag_engine.py:97-138 | Re-initialising with a non-empty persist directory whose load raises, and Chroma then failing to index the seed corpus, resets an existing vector store to None. |
| `RagEngine.InitFailureReported` | backend/rag_engine.py:157-161 | An initialisation error gives the "RAG system is initializing" template, and the answer contains the error text. |
| `RagEngine.AnswerAfterInitialization` | backend/rag_engine.py:157-176 | A successful first initialisation does not show in the answer: it is what the initialised engine answers. |
| `RagEngine.GeneratedAnswerWins` | backend/rag_engine.py:164-170 | When the QA chain answers, the answer is its `"result"` entry, or `str(result)` when that entry is missing. |
| `RagEngine.FailedGenerationFallsThrough` | backend/rag_engine.py:164-176 | When the QA chain raises, the answer equals the answer of the same engine without a chain. |
| `RagEngine.NoRetrievalWithoutStoreAndEmbeddings` | backend/rag_engine.py:175-215 | With no chain answer and no store or no embeddings, the answer is the "still initializing" template, which quotes the question. |
| `RagEngine.HitsAnswer` | backend/rag_engine.py:185-195 | One hit gives the hit plus the semantic-search note. Two or more hits give the first two joined by "Additionally:". |
| `RagEngine.ThirdHitNeverAppears` | backend/rag_engine.py:179-195 | In every state the answer to a search returning three or more hits is the answer to a search returning only the first two. |
| `RagEngine.NoHitsEchoesQuestion` | backend/rag_engine.py:196-202 | The no-relevant-information answer contains the question in quotes. |
| `RagEngine.RetrievalErrorEchoesQuestion` | backend/rag_engine.py:203-208 | The retrieval-error answer contains both the error text and the question in quotes. |
| `RagEngine.NoHitsAnswer` | backend/rag_engine.py:179-202 | When the search finds nothing, `query` answers with the "no relevant information" template, which quotes the question. |
| `RagEngine.RetrievalErrorAnswer` | backend/rag_engine.py:179-208 | When the search raises, `query` answers with the retrieval-error template, which carries the error text and quotes the question. |
| `RagEngine.StillInitializingEchoesQuestion` | backend/rag_engine.py:210-215 | The still-initializing answer contains the question in quotes. |
| `RagEngine.OnlyGenerationCanBeEmpty` | backend/rag_engine.py:156-215 | An empty answer can only come from a QA chain whose call succeeded. |
| `RagEngine.AddWithoutLibrariesIsNoOp` | backend/rag_engine.py:220-222 | Without the libraries, `add_documents` changes nothing and raises nothing. |
| `RagEngine.AddExtendsExistingStore` | backend/rag_engine.py:233-237 | An existing store gains exactly the new chunks, or stays unchanged when the add raises. |
| `RagEngine.AddCreatesStoreFromChunks` | backend/rag_engine.py:238-246 | Without a store, a store is created from exactly the new chunks, or the store stays absent when Chroma raises. |
| `ThreadStore.DisplayTitle` | backend/main.py:83 | The shown title is never empty. It is the stored title when that is non-empty, and "Untitled" exactly when the title is NULL, empty or itself "Untitled". |
| `ThreadStore.DeriveTitle` | backend/main.py:135 | A title has at most 53 characters. A prompt of at most 50 characters is its own title. A longer prompt gives its first 50 characters followed by "...". |
| `ThreadStore.TitleIsPromptExactly` | backend/main.py:135 | The title equals the prompt exactly when the prompt has at most 50 characters, or has 53 characters and ends in "..." after the cut. |
| `ThreadStore.DeriveTitleIdempotent` | backend/main.py:135 | Deriving a title from a title gives the same title. |
| `ThreadStore.ListThreads` | backend/main.py:74-88 | The listing is ordered by `updated_at`, newest first. It has one entry per thread. Every entry is that thread's row with its title defaulted. |
| `ThreadStore.ThreadMessages` | backend/main.py:103 | Every message whose `thread_id` matches is selected, and every selected row is such a message. |
| `ThreadStore.ThreadMessagesCount` | backend/main.py:103 | The rows selected for a thread and the rows a delete of that thread keeps add up to the whole table: the selection has exactly as many rows as the thread has in the table. With unique message ids and the membership clauses of `ThreadMessages`, that is each matching row once. |
| `Sorting.SortBy` | backend/main.py:103 | `ORDER BY` returns the same rows, each as often as before, in key order. |
| `Sorting.SortedTiesAreEqualKeys` | backend/main.py:78 | In an ordered listing, two rows could appear in the other order exactly when their keys are equal. |
| `ThreadStore.GetThread` | backend/main.py:90-120 | An unknown id gives 404 "Thread not found", and only an unknown id does. Otherwise the result is the thread row with its title defaulted, and its messages are exactly the thread's messages, oldest first. |
| `ThreadStore.SaveExchange` | backend/main.py:128-165 | Saving fails with 500 exactly when a fresh id collides with a key in use. Otherwise it appends the user row and then the assistant row, under one thread id and timestamp. Without a thread id, it adds one new thread created and updated now under the fresh id. With a thread id, it only sets that thread's `updated_at`, if the thread exists. |
| `ThreadStore.SaveKeepsMessageIdsUnique` | backend/main.py:144-156 | Message ids stay unique across a save. |
| `ThreadStore.WithoutThread` | backend/main.py:173 | Every message of other threads keeps its multiplicity, and no message of the deleted thread remains. |
| `ThreadStore.DeleteThread` | backend/main.py:169-177 | Exactly that thread row goes and the other rows are unchanged. The remaining messages are exactly the old messages of other threads. |
| `ThreadStore.DeleteThreadIdempotent` | backend/main.py:173-174 | Deleting a thread twice is the same as deleting it once. |
| `ThreadStore.DeleteThreadOnlyAffectsThatThread` | backend/main.py:173-174 | After deletion, reading the thread gives 404, and every other thread reads back exactly as before. |
| `ThreadStore.DeleteUndoesNewThread` | backend/main.py:133-174 | Saving into a new thread and then deleting it restores the store, provided no orphan messages already carried the new id. |
| `ThreadStore.NewThreadReadsBack` | backend/main.py:90-156 | A new thread reads back with the derived title, both timestamps equal to now, and exactly the user and assistant messages. |
| `Api.Chat` | backend/main.py:122-167 | The engine moves on exactly as `query` moves it. The reply's response is the engine's answer. Exactly the two exchange rows are appended. Without a thread id, one new thread titled from the prompt is added under the fresh id; with one, only that thread's `updated_at` becomes now, if it exists. A key collision answers 500 and leaves the store unchanged. |
| `Api.ReplyIsLastMessage` | backend/main.py:144-165 | The returned `message_id`, `thread_id` and `response` are those of the last saved row, an assistant row. The row before it is the user's prompt. |
| `Api.ChatLeavesInitializedEngine` | backend/main.py:124-126 | Chatting with an initialised engine leaves the engine unchanged. |
| `FrontendRoute.ServeFrontendFilesAsWritten` | backend/main.py:196-209 | Names starting with `api` or `docs`, and `openapi.json`, get a 404 JSON error. A file is served only if its name is `index.html`, `styles.css` or `app.js` and it exists. |
| `FrontendRoute.ServedNamesNotReserved` | backend/main.py:199-205 | None of the three served names is caught by the api/docs/openapi filter. |
| `FrontendRoute.UnknownFileGets200` | backend/main.py:199-209 | As written, any name that is not reserved and is not a listed file that exists, including a listed file that is missing, gets the array `[{"error": "Not found"}, 404]` with status 200. |
| `FrontendRoute.FaviconGets200` | backend/main.py:209 | `favicon.ico` gets `[{"error": "Not found"}, 404]` with status 200. |
| `FrontendRoute.ServeFrontendFiles` | backend/main.py:196-209 | Corrected handler: a file is served exactly when it is whitelisted and exists, and every other request gets a 404 `{"error": "Not found"}`. |
| `FrontendRoute.CorrectionOnlyChangesStatus` | backend/main.py:199-209 | The correction agrees with the code on served files and on reserved names. It only turns the remaining refusals into 404. |

## Left out

- LangChain, Chroma and HuggingFace internals are not modelled: the text splitter, the embedding model, similarity ranking and persistence. Each is an opaque field of `Backends`. Chunk sizes, overlap and ranking are not reasoned about; the constants 500, 50 and k = 3 are only passed through.
- `asyncio.to_thread` is not modelled: calls run one after another, with no concurrency.
- SQLite itself is not modelled: connections, SQL text, `init_db` and the foreign-key declaration. The tables become a map and a sequence.
- `uuid4()` and `datetime.now()` are not modelled; they are parameters.
- File-system checks are not modelled: whether the persist directory is non-empty is a flag, and whether a frontend file exists is a function parameter. The flag does not follow the engine's own `Chroma.from_documents` writes into that directory.
- RagEngine.InitializeVectorstore: only the splitter's error is modelled as escaping. `os.listdir` at rag_engine.py:97 sits outside any `try` and raises when ./chroma_db exists but is not a readable directory; that error would escape `_initialize` as well, and it is not modelled.
- RagEngine.Retrieve: `if self.vectorstore` (rag_engine.py:141, 176) is Python truthiness of a Chroma object, modelled as "a store is present". If the library makes an empty collection falsy, or its length check raises, the source behaves differently and that is not modelled.
- RagEngine.AddDocuments: `if self.vectorstore` at rag_engine.py:233 is modelled as "a store is present", as in `RagEngine.Retrieve`.
- RagEngine.AddDocuments: a store's `documents` are the chunks this engine passed to Chroma. A collection reopened from a directory that already holds data may hold more.
- RagEngine.AddCreatesStoreFromChunks: "exactly the new chunks" means the chunks this engine passed to `Chroma.from_documents`. The persisted-directory flag does not follow the engine's own writes, so data already in ./chroma_db is not counted.
- `print` logging is not modelled.
- FastAPI, CORS, `StaticFiles` mounting, the `if os.path.exists(frontend_path)` registration guard, the `/` route (`serve_frontend`) and `uvicorn` startup are not modelled.
- backend/static_handler.py is not part of this model. Its only decision rests on `os.path.normpath` and file existence.
- RagEngine.GeneratedAnswerWins: the `"result"` entry is taken to be a string. A non-string entry such as None would be returned as is by the source and is not modelled.
- RagEngine.AddExtendsExistingStore: a raising `vectorstore.add_documents` is taken to leave the collection's contents unchanged. Chroma may keep part of a batch.
- ThreadStore.SaveExchange: only primary-key collisions are modelled as database errors. Other SQLite failures (locked or unwritable database) also answer 500 and commit nothing, but are not modelled.
- ThreadStore.ListThreads: rows with equal `updated_at` can come out in any order, as SQL leaves it open.
- Chunking round-trips and similarity-search ranking and bounds are library behaviour and are not modelled.

## Findings

| source | as written | input that shows it | evidently intended | confidence | as-written member | corrected member |
|---|---|---|---|---|---|---|
| backend/main.py:209 | `return {"error": "Not found"}, 404` returns a tuple. FastAPI encodes it as the JSON array `[{"error": "Not found"}, 404]` with status 200. | `GET /favicon.ico`, or any name that is not reserved and not one of the three existing frontend files | status 404 with `{"error": "Not found"}`, as line 201 returns for reserved names | high; not executed | `FrontendRoute.FaviconGets200` | `FrontendRoute.ServeFrontendFiles` |

=== FILE: api.dfy ===
/** The `chat` handler of backend/main.py: ask the engine, then record the
    exchange in the thread store in one transaction.
 */
module Api {
  import opened Wrappers
  import RagEngine
  import opened ThreadStore

  /** The engine and store after the request, and what the handler returns. */
  datatype ChatOutcome = ChatOutcome(engine: RagEngine.Engine, store: Store, reply: Result<ChatReply, HttpError>)

  /** `POST /api/chat`. The engine is asked first, so its state moves on even
      when saving then fails; a failed save commits nothing. */
  function Chat(engine: RagEngine.Engine, store: Store, request: ChatRequest, b: RagEngine.Backends,
                now: string, ids: FreshIds): (r: ChatOutcome)
    ensures r.engine == RagEngine.Query(engine, request.prompt, b).engine
    ensures r.reply.Failure? <==> KeyCollision(store, request, ids)
    ensures r.reply.Failure? ==> r.store == store && r.reply.error.status == 500
    ensures r.reply.Success? ==>
              var answer := RagEngine.Query(engine, request.prompt, b).answer;
              && r.reply.value.response == answer
              && r.store.messages == store.messages + Exchange(request, answer, now, ids, r.reply.value.threadId)
    ensures r.reply.Success? && StartsNewThread(request) ==>
              && r.reply.value.threadId == ids.thread
              && r.store.threads == store.threads[ids.thread := ThreadRow(Some(DeriveTitle(request.prompt)), now, now)]
    ensures r.reply.Success? && !StartsNewThread(request) ==>
              && r.reply.value.threadId == request.threadId.value
              && r.store.threads.Keys == store.threads.Keys
              && (forall id :: id in store.threads && id != request.threadId.value ==>
                    r.store.threads[id] == store.threads[id])
              && (request.threadId.value in store.threads ==>
                    r.store.threads[request.threadId.value] == store.threads[request.threadId.value].(updatedAt := now))
  {
    var answered := RagEngine.Query(engine, request.prompt, b);
    match SaveExchange(store, request, answered.answer, now, ids)
    case Success(saved) => ChatOutcome(answered.engine, saved.store, Success(saved.reply))
    case Failure(error) => ChatOutcome(answered.engine, store, Failure(error))
  }

  /** The reply names the assistant's message: the last row saved carries the
      reply's id, thread and text, and the row before it is the prompt. */
  lemma ReplyIsLastMessage(engine: RagEngine.Engine, store: Store, request: ChatRequest, b: RagEngine.Backends,
                           now: string, ids: FreshIds)
    requires Chat(engine, store, request, b, now, ids).reply.Success?
    ensures var r := Chat(engine, store, request, b, now, ids);
            var reply := r.reply.value;
            && |r.store.messages| == |store.messages| + 2
            && r.store.messages[|r.store.messages| - 1] == MessageRow(reply.messageId, reply.threadId, Assistant, reply.response, now)
            && r.store.messages[|r.store.messages| - 2] == MessageRow(ids.userMessage, reply.threadId, User, request.prompt, now)
  {
  }

  /** Once the engine is initialised, chatting never touches it. */
  lemma ChatLeavesInitializedEngine(engine: RagEngine.Engine, store: Store, request: ChatRequest, b: RagEngine.Backends,
                                    now: string, ids: FreshIds)
    requires engine.initialized
    ensures Chat(engine, store, request, b, now, ids).engine == engine
  {
  }
}

=== FILE: frontend_route.dfy ===
/** The catch-all route `GET /{filename:path}` of backend/main.py, which
    serves the three files of the single-page frontend. Whether a file exists
    on disk is a parameter.
 */
module FrontendRoute {
  import opened Text

  /** The only files the route will hand out. */
  const Served: seq<string> := ["index.html", "styles.css", "app.js"]

  const NotFound := "Not found"

  /** Paths left to the API and documentation routes. */
  predicate Reserved(filename: string)
  {
    StartsWith(filename, "api") || StartsWith(filename, "docs") || filename == "openapi.json"
  }

  /** A JSON body: `{"error": e}`, or the array `[{"error": e}, code]` FastAPI
      makes of a returned tuple. */
  datatype Body = ErrorObject(error: string) | ErrorObjectAndCode(error: string, code: int)

  datatype Response = File(name: string) | Json(status: nat, body: Body)

  /** The handler as written: an unknown name falls to `return {...}, 404`,
      a tuple that FastAPI serialises as a JSON array with status 200. */
  function ServeFrontendFilesAsWritten(filename: string, fileExists: string -> bool): (r: Response)
    ensures Reserved(filename) ==> r == Json(404, ErrorObject(NotFound))
    ensures r.File? ==> r.name == filename && filename in Served && fileExists(filename)
  {
    if Reserved(filename) then
      Json(404, ErrorObject(NotFound))
    else if filename in Served && fileExists(filename) then
      File(filename)
    else
      Json(200, ErrorObjectAndCode(NotFound, 404))
  }

  /** None of the served names is reserved, so the filter never hides them. */
  lemma ServedNamesNotReserved()
    ensures forall f :: f in Served ==> !Reserved(f)
  {
    assert "index.html"[0] != "api"[0] && "index.html"[0] != "docs"[0];
    assert "styles.css"[0] != "api"[0] && "styles.css"[0] != "docs"[0];
    assert "app.js"[2] != "api"[2] && "app.js"[0] != "docs"[0];
  }

  /** As written, a request for any other file, or for a listed file that is
      missing, succeeds with status 200 and the tuple as a JSON array. */
  lemma UnknownFileGets200(filename: string, fileExists: string -> bool)
    requires !Reserved(filename) && !(filename in Served && fileExists(filename))
    ensures ServeFrontendFilesAsWritten(filename, fileExists).Json?
    ensures ServeFrontendFilesAsWritten(filename, fileExists).status == 200
    ensures ServeFrontendFilesAsWritten(filename, fileExists) == Json(200, ErrorObjectAndCode(NotFound, 404))
  {
  }

  /** For example `/favicon.ico`. */
  lemma FaviconGets200(fileExists: string -> bool)
    ensures ServeFrontendFilesAsWritten("favicon.ico", fileExists) == Json(200, ErrorObjectAndCode(NotFound, 404))
  {
    assert "favicon.ico"[0] != "api"[0] && "favicon.ico"[0] != "docs"[0];
    assert |"favicon.ico"| != |"openapi.json"|;
    UnknownFileGets200("favicon.ico", fileExists);
  }

  /** The handler as evidently intended: every refusal is a 404. */
  function ServeFrontendFiles(filename: string, fileExists: string -> bool): (r: Response)
    ensures r.File? <==> filename in Served && fileExists(filename)
    ensures r.File? ==> r.name == filename
    ensures r.Json? ==> r == Json(404, ErrorObject(NotFound))
  {
    ServedNamesNotReserved();
    if Reserved(filename) then
      Json(404, ErrorObject(NotFound))
    else if filename in Served && fileExists(filename) then
      File(filename)
    else
      Json(404, ErrorObject(NotFound))
  }

  /** The correction changes only the refusals that reached the tuple. */
  lemma CorrectionOnlyChangesStatus(filename: string, fileExists: string -> bool)
    ensures ServeFrontendFilesAsWritten(filename, fileExists).File? ==>
              ServeFrontendFiles(filename, fileExists) == ServeFrontendFilesAsWritten(filename, fileExists)
    ensures Reserved(filename) ==>
              ServeFrontendFiles(filename, fileExists) == ServeFrontendFilesAsWritten(filename, fileExists)
    ensures ServeFrontendFilesAsWritten(filename, fileExists).Json? ==>
              ServeFrontendFiles(filename, fileExists) == Json(404, ErrorObject(NotFound))
  {
  }
}

=== FILE: rag_engine.dfy ===
/** The retrieval-augmented answering engine (`RAGEngine` in backend/rag_engine.py).

    The engine owns four optional handles (embeddings, LLM, vector store, QA
    chain) and a one-shot `initialized` flag. Everything it calls — the LangChain
    imports, the HuggingFace embedding model, Chroma, the text splitter, the QA
    chain and similarity search — is a field of `Backends`: a function from the
    call's arguments to the call's outcome, either a value or a raised error.
    Each engine operation is a pure function from the engine state and those
    outcomes to the new state and what the operation returns.
 */
module RagEngine {
  import opened Wrappers
  import opened Text

  const EmbeddingModel := "sentence-transformers/all-MiniLM-L6-v2"
  /** Splitter settings used both for the seed corpus and for ingestion. */
  const ChunkSize: nat := 500
  const ChunkOverlap: nat := 50
  /** Number of nearest neighbours asked of similarity search. */
  const TopK: nat := 3

  /** The knowledge base indexed when no persisted index can be loaded. */
  const SeedDocuments: seq<string> := [
    "FastAPI is a modern Python web framework for building APIs quickly and efficiently.",
    "RAG (Retrieval-Augmented Generation) combines information retrieval with language generation for more accurate AI responses.",
    "ChromaDB is a vector database that stores embeddings for semantic search and similarity matching.",
    "LangChain is a framework for building applications powered by large language models.",
    "Vector embeddings convert text into numerical representations that capture semantic meaning.",
    "Semantic search allows finding information based on meaning rather than exact keyword matches.",
    "The RAG automation system stores conversation threads in a SQLite database for persistence.",
    "Users can create multiple conversation threads, each maintaining its own message history.",
    "The frontend interface allows real-time chat with the RAG-powered assistant.",
    "Embeddings enable the system to find relevant information even when exact words don't match."
  ]

  /** An opaque library object: an embedding model, an LLM or a QA chain. */
  datatype Handle = Handle(id: nat)

  /** A Chroma collection and the page contents of the chunks this engine
      passed to it: what else the persist directory may already hold is not
      tracked. */
  datatype VectorStore = VectorStore(id: nat, documents: seq<string>)

  /** What a QA chain's `invoke` returns: its `"result"` entry, if any, and
      `str(result)`. */
  datatype ChainResult = ChainResult(result: Option<string>, text: string)

  datatype Engine = Engine(
    initialized: bool,
    embeddings: Option<Handle>,
    llm: Option<Handle>,
    vectorstore: Option<VectorStore>,
    qaChain: Option<Handle>)

  /** The outcome of every call the engine makes into library code. */
  datatype Backends = Backends(
    /** the LangChain imports succeeded; they bind every name or none */
    langchain: bool,
    /** `HuggingFaceEmbeddings(model_name=...)` */
    loadEmbeddings: string -> CallOutcome<Handle>,
    /** the persist directory exists and is not empty when
        `_initialize_vectorstore` looks; the engine's own Chroma writes into
        that directory are not reflected in this flag */
    persistedIndex: bool,
    /** `Chroma(persist_directory=..., embedding_function=embeddings)` */
    loadStore: Option<Handle> -> CallOutcome<VectorStore>,
    /** `splitter.split_documents(...)` with the given chunk size and overlap */
    split: (seq<string>, nat, nat) -> CallOutcome<seq<string>>,
    /** `Chroma.from_documents(...)`: the id of the new collection */
    createStore: (Option<Handle>, seq<string>) -> CallOutcome<nat>,
    /** `vectorstore.add_documents(chunks)` */
    addToStore: (VectorStore, seq<string>) -> CallOutcome<()>,
    /** `RetrievalQA.from_chain_type(llm=..., retriever=store.as_retriever(k=3))` */
    buildChain: (Handle, VectorStore) -> CallOutcome<Handle>,
    /** `qa_chain.invoke({"query": question})` */
    invoke: (Handle, string) -> CallOutcome<ChainResult>,
    /** `vectorstore.similarity_search(question, k)` */
    search: (VectorStore, string, nat) -> CallOutcome<seq<string>>)

  /** The engine state after an operation and the error it let escape, if any. */
  datatype Step = Step(engine: Engine, raised: Option<string>)

  /** The answer `query` returns and the engine state it leaves behind. */
  datatype Answered = Answered(answer: string, engine: Engine)

  const Empty := Engine(false, None, None, None, None)

  /** No language model and no QA chain: the only states the deployed engine
      can reach, because `_initialize` always clears the LLM. */
  predicate NoGenerator(e: Engine)
  {
    e.llm.None? && e.qaChain.None?
  }

  // ---------------------------------------------------------------------------
  // Answer templates
  // ---------------------------------------------------------------------------

  const InitializingPrefix := "RAG system is initializing. Please try again in a moment. Error: "

  function InitializingMessage(error: string): string
  {
    InitializingPrefix + error
  }

  const SingleHitSuffix := "\n\nThis information is retrieved from the knowledge base using semantic search."
  const SecondHitSeparator := "\n\nAdditionally: "

  /** `'<question>'` as every retrieval-tier template quotes it. */
  function Quoted(question: string): string
  {
    "'" + question + "'"
  }

  const ReceivedPrefix := "I received your question: "
  const NoHitsSuffix := "\n\nHowever, I couldn't find directly relevant information in the knowledge base. "
    + "The RAG retrieval system is working, but you may want to add more documents "
    + "related to your question. For AI-generated responses, consider installing Ollama."

  function NoHitsMessage(question: string): string
  {
    ReceivedPrefix + Quoted(question) + NoHitsSuffix
  }

  const RetrievalErrorPrefix := "Retrieval error: "
  const RetrievalErrorSuffix := ". The system is working but encountered an issue during retrieval."

  function RetrievalErrorMessage(error: string, question: string): string
  {
    RetrievalErrorPrefix + error + "\n\n" + ReceivedPrefix + Quoted(question) + RetrievalErrorSuffix
  }

  const GreetingPrefix := "Hello! I received your question: "
  const StillInitializingSuffix := "\n\nThe RAG system is still initializing. Please wait a moment and try again. "
    + "If this persists, the embedding model may still be downloading (first run only)."

  function StillInitializingMessage(question: string): string
  {
    GreetingPrefix + Quoted(question) + StillInitializingSuffix
  }

  /** The answer synthesised from the (at most two) retrieved contexts. */
  function Synthesize(contexts: seq<string>): string
    requires 1 <= |contexts| <= 2
  {
    if |contexts| == 1 then contexts[0] + SingleHitSuffix
    else contexts[0] + SecondHitSeparator + contexts[1]
  }

  // ---------------------------------------------------------------------------
  // Initialisation
  // ---------------------------------------------------------------------------

  /** The store handle a `Chroma.from_documents` outcome leaves behind. */
  function CreatedStore(created: CallOutcome<nat>, chunks: seq<string>): Option<VectorStore>
  {
    match created
    case Ok(id) => Some(VectorStore(id, chunks))
    case Raised(_) => None
  }

  /** `_initialize_vectorstore`: load the persisted index, or else index the
      seed corpus, then build the QA chain when an LLM is present. Only the
      splitter may raise out of it. */
  function InitializeVectorstore(e: Engine, b: Backends): (r: Step)
    ensures r.engine.initialized == e.initialized
    ensures r.engine.embeddings == e.embeddings && r.engine.llm == e.llm
    ensures e.llm.None? ==> r.engine.qaChain == e.qaChain
    ensures r.raised.Some? ==> r.engine == e
    ensures r.raised.Some? ==> b.split(SeedDocuments, ChunkSize, ChunkOverlap) == Raised(r.raised.value)
    ensures !b.langchain ==> r == Step(e, None)
  {
    if !b.langchain then
      Step(e, None)
    else if b.persistedIndex && b.loadStore(e.embeddings).Ok? then
      Step(e.(vectorstore := Some(b.loadStore(e.embeddings).value)), None)
    else
      match b.split(SeedDocuments, ChunkSize, ChunkOverlap)
      case Raised(error) => Step(e, Some(error))
      case Ok(chunks) =>
        var e1 := e.(vectorstore := CreatedStore(b.createStore(e.embeddings, chunks), chunks));
        if e1.llm.Some? && e1.vectorstore.Some? && b.langchain then
          Step(e1.(qaChain := b.buildChain(e1.llm.value, e1.vectorstore.value).ToOption()), None)
        else
          Step(e1, None)
  }

  /** `_initialize`: a one-shot step that reloads the embeddings, clears the
      LLM, initialises the vector store and only then sets the flag. */
  function Initialize(e: Engine, b: Backends): (r: Step)
    ensures e.initialized ==> r == Step(e, None)
    ensures r.engine.initialized <==> r.raised.None?
    ensures !e.initialized ==> r.engine.llm.None?
    ensures e.qaChain.None? ==> r.engine.qaChain.None?
    ensures r.raised.Some? ==> r.engine.vectorstore == e.vectorstore
  {
    if e.initialized then
      Step(e, None)
    else
      var embeddings := if b.langchain then b.loadEmbeddings(EmbeddingModel).ToOption() else e.embeddings;
      var s := InitializeVectorstore(e.(embeddings := embeddings, llm := None), b);
      if s.raised.Some? then s else Step(s.engine.(initialized := true), None)
  }

  /** `RAGEngine()`: a fresh engine that tries to initialise once and swallows
      any error. */
  function New(b: Backends): (e: Engine)
    ensures NoGenerator(e)
    ensures e.initialized <==>
              || !b.langchain
              || (b.persistedIndex && b.loadStore(e.embeddings).Ok?)
              || b.split(SeedDocuments, ChunkSize, ChunkOverlap).Ok?
  {
    Initialize(Empty, b).engine
  }

  // ---------------------------------------------------------------------------
  // Query: the fallback ladder
  // ---------------------------------------------------------------------------

  /** The retrieval-only tier, and the "still initializing" tier when the
      engine lacks a store or embeddings. */
  function Retrieve(e: Engine, question: string, b: Backends): string
  {
    if e.vectorstore.Some? && e.embeddings.Some? then
      match b.search(e.vectorstore.value, question, TopK)
      case Ok(docs) =>
        if |docs| > 0 then
          Synthesize(if |docs| >= 2 then docs[..2] else docs)
        else
          NoHitsMessage(question)
      case Raised(error) => RetrievalErrorMessage(error, question)
    else
      StillInitializingMessage(question)
  }

  /** The ladder once initialisation is settled: the QA chain's answer when
      the chain exists and its call succeeds, retrieval otherwise. */
  function Answer(e: Engine, question: string, b: Backends): string
  {
    if e.qaChain.Some? && b.invoke(e.qaChain.value, question).Ok? then
      var result := b.invoke(e.qaChain.value, question).value;
      result.result.GetOr(result.text)
    else
      Retrieve(e, question, b)
  }

  /** `query`: initialise if needed, reporting a failure to do so, then answer.
      It changes the engine only by initialising it. */
  function Query(e: Engine, question: string, b: Backends): (r: Answered)
    ensures e.initialized ==> r.engine == e
    ensures !e.initialized ==> r.engine == Initialize(e, b).engine
    ensures !r.engine.initialized ==> r.answer == InitializingMessage(Initialize(e, b).raised.value)
  {
    if !e.initialized then
      var s := Initialize(e, b);
      if s.raised.Some? then
        Answered(InitializingMessage(s.raised.value), s.engine)
      else
        Answered(Answer(s.engine, question, b), s.engine)
    else
      Answered(Answer(e, question, b), e)
  }

  // ---------------------------------------------------------------------------
  // Ingestion
  // ---------------------------------------------------------------------------

  /** `add_documents`: split the texts, then add the chunks to the existing
      store or create a store from exactly those chunks. Errors from the
      store are swallowed; an error from the splitter escapes. */
  function AddDocuments(e: Engine, documents: seq<string>, b: Backends): (r: Step)
    ensures r.engine == e.(vectorstore := r.engine.vectorstore)
    ensures e.vectorstore.Some? ==> r.engine.vectorstore.Some? && r.engine.vectorstore.value.id == e.vectorstore.value.id
    ensures e.vectorstore.Some? && r.engine.vectorstore != e.vectorstore ==>
              exists chunks :: b.split(documents, ChunkSize, ChunkOverlap) == Ok(chunks)
                && r.engine.vectorstore.value.documents == e.vectorstore.value.documents + chunks
    ensures e.vectorstore.None? && r.engine.vectorstore.Some? ==>
              b.split(documents, ChunkSize, ChunkOverlap) == Ok(r.engine.vectorstore.value.documents)
    ensures r.raised.Some? ==> r.engine == e && b.split(documents, ChunkSize, ChunkOverlap).Raised?
  {
    if !b.langchain then
      Step(e, None)
    else
      match b.split(documents, ChunkSize, ChunkOverlap)
      case Raised(error) => Step(e, Some(error))
      case Ok(chunks) =>
        if e.vectorstore.Some? then
          var store := e.vectorstore.value;
          if b.addToStore(store, chunks).Ok? then
            Step(e.(vectorstore := Some(store.(documents := store.documents + chunks))), None)
          else
            Step(e, None)
        else
          Step(e.(vectorstore := CreatedStore(b.createStore(e.embeddings, chunks), chunks)), None)
  }

  // ---------------------------------------------------------------------------
  // Properties of initialisation
  // ---------------------------------------------------------------------------

  /** A successful `_initialize` makes every later call a no-op. */
  lemma InitializeIdempotent(e: Engine, b: Backends)
    requires Initialize(e, b).raised.None?
    ensures Initialize(Initialize(e, b).engine, b) == Initialize(e, b)
  {
  }

  /** With no persisted index to load, initialisation indexes exactly the
      chunks of the seed corpus, or leaves no store when Chroma fails. */
  lemma SeedIndexHoldsSeedChunks(e: Engine, b: Backends, chunks: seq<string>)
    requires !e.initialized && b.langchain
    requires !b.persistedIndex
    requires b.split(SeedDocuments, ChunkSize, ChunkOverlap) == Ok(chunks)
    ensures Initialize(e, b).raised.None?
    ensures Initialize(e, b).engine.vectorstore ==
              CreatedStore(b.createStore(Initialize(e, b).engine.embeddings, chunks), chunks)
  {
  }

  /** The deployed engine never holds an LLM or a QA chain: the constructor
      starts without one and no operation adds one. */
  lemma NoGeneratorPreserved(e: Engine, question: string, documents: seq<string>, b: Backends)
    requires NoGenerator(e)
    ensures NoGenerator(Initialize(e, b).engine)
    ensures NoGenerator(Query(e, question, b).engine)
    ensures NoGenerator(AddDocuments(e, documents, b).engine)
  {
  }

  /** Hence in the deployed engine the generation tier is dead: what the QA
      chain would answer makes no difference. */
  lemma DeployedEngineNeverGenerates(e: Engine, question: string, b: Backends,
                                     invoke: (Handle, string) -> CallOutcome<ChainResult>)
    requires NoGenerator(e)
    ensures Query(e, question, b) == Query(e, question, b.(invoke := invoke))
  {
  }

  /** Retrying a failed initialisation re-creates the embeddings, and drops a
      handle that was already there when HuggingFace now fails. */
  lemma RetryCanDropEmbeddings(e: Engine, b: Backends)
    requires !e.initialized && e.embeddings.Some?
    requires b.langchain && b.loadEmbeddings(EmbeddingModel).Raised?
    ensures Initialize(e, b).engine.embeddings.None?
  {
  }

  /** Retrying a failed initialisation drops a store that `add_documents`
      already created: that store was written to the persist directory, so the
      retry tries to load it first, and when the load raises it re-indexes the
      seed corpus and Chroma now fails as well. */
  lemma RetryCanDropStore(e: Engine, b: Backends, chunks: seq<string>)
    requires !e.initialized && e.vectorstore.Some?
    requires b.langchain && b.persistedIndex
    requires forall h :: b.loadStore(h).Raised?
    requires b.split(SeedDocuments, ChunkSize, ChunkOverlap) == Ok(chunks)
    requires forall h :: b.createStore(h, chunks).Raised?
    ensures Initialize(e, b).engine.vectorstore.None?
  {
  }

  // ---------------------------------------------------------------------------
  // Properties of the answer ladder
  // ---------------------------------------------------------------------------

  /** When initialisation raises, the answer carries the error text and not
      the question. */
  lemma InitFailureReported(e: Engine, question: string, b: Backends)
    requires !e.initialized && Initialize(e, b).raised.Some?
    ensures Query(e, question, b).answer == InitializingMessage(Initialize(e, b).raised.value)
    ensures Contains(Query(e, question, b).answer, Initialize(e, b).raised.value)
  {
    var error := Initialize(e, b).raised.value;
    ContainsMiddle(InitializingPrefix, error, "");
    assert InitializingPrefix + error + "" == InitializingMessage(error);
  }

  /** A successful first initialisation is invisible in the answer: it is the
      answer the initialised engine gives. */
  lemma AnswerAfterInitialization(e: Engine, question: string, b: Backends)
    requires !e.initialized && Initialize(e, b).raised.None?
    ensures Query(e, question, b).answer == Query(Initialize(e, b).engine, question, b).answer
  {
  }

  /** A QA chain that answers wins: its `"result"` entry, or `str(result)`. */
  lemma GeneratedAnswerWins(e: Engine, question: string, b: Backends, result: ChainResult)
    requires e.initialized && e.qaChain.Some?
    requires b.invoke(e.qaChain.value, question) == Ok(result)
    ensures result.result.Some? ==> Query(e, question, b).answer == result.result.value
    ensures result.result.None? ==> Query(e, question, b).answer == result.text
  {
  }

  /** A QA chain that raises is as good as no chain: its error never reaches
      the answer. */
  lemma FailedGenerationFallsThrough(e: Engine, question: string, b: Backends)
    requires e.initialized && e.qaChain.Some?
    requires b.invoke(e.qaChain.value, question).Raised?
    ensures Query(e, question, b).answer == Query(e.(qaChain := None), question, b).answer
  {
  }

  /** With no answer from a chain, retrieval needs both a store and embeddings;
      without them the answer is the "still initializing" template. */
  lemma NoRetrievalWithoutStoreAndEmbeddings(e: Engine, question: string, b: Backends)
    requires e.initialized && e.qaChain.None?
    requires e.vectorstore.None? || e.embeddings.None?
    ensures Query(e, question, b).answer == StillInitializingMessage(question)
    ensures Contains(Query(e, question, b).answer, Quoted(question))
  {
    StillInitializingEchoesQuestion(question);
  }

  /** One hit is returned with the retrieval note; two or more give the first
      two hits joined by "Additionally". */
  lemma HitsAnswer(e: Engine, question: string, b: Backends, docs: seq<string>)
    requires e.initialized && e.qaChain.None?
    requires e.vectorstore.Some? && e.embeddings.Some?
    requires b.search(e.vectorstore.value, question, TopK) == Ok(docs)
    ensures |docs| == 1 ==> Query(e, question, b).answer == docs[0] + SingleHitSuffix
    ensures |docs| >= 2 ==> Query(e, question, b).answer == docs[0] + SecondHitSeparator + docs[1]
  {
  }

  /** Whatever the state, the answer depends on no hit past the second. */
  lemma ThirdHitNeverAppears(e: Engine, question: string, b: Backends, docs: seq<string>)
    requires |docs| >= 2
    ensures Query(e, question, b.(search := (s: VectorStore, q: string, k: nat) => Ok(docs))).answer
         == Query(e, question, b.(search := (s: VectorStore, q: string, k: nat) => Ok(docs[..2]))).answer
  {
  }

  /** The "no relevant information" template quotes the question verbatim. */
  lemma NoHitsEchoesQuestion(question: string)
    ensures Contains(NoHitsMessage(question), Quoted(question))
  {
    ContainsMiddle(ReceivedPrefix, Quoted(question), NoHitsSuffix);
  }

  /** The retrieval error template carries both the error text and the quoted
      question. */
  lemma RetrievalErrorEchoesQuestion(error: string, question: string)
    ensures Contains(RetrievalErrorMessage(error, question), Quoted(question))
    ensures Contains(RetrievalErrorMessage(error, question), error)
  {
    var q := Quoted(question);
    ContainsSelf(q);
    ContainsAfter(RetrievalErrorPrefix + error + "\n\n" + ReceivedPrefix, q, q);
    ContainsBefore(RetrievalErrorPrefix + error + "\n\n" + ReceivedPrefix + q, RetrievalErrorSuffix, q);
    ContainsSelf(error);
    ContainsAfter(RetrievalErrorPrefix, error, error);
    ContainsBefore(RetrievalErrorPrefix + error, "\n\n", error);
    ContainsBefore(RetrievalErrorPrefix + error + "\n\n", ReceivedPrefix, error);
    ContainsBefore(RetrievalErrorPrefix + error + "\n\n" + ReceivedPrefix, q, error);
    ContainsBefore(RetrievalErrorPrefix + error + "\n\n" + ReceivedPrefix + q, RetrievalErrorSuffix, error);
  }

  /** A search that finds nothing gives the "no relevant information"
      answer, which quotes the question. */
  lemma NoHitsAnswer(e: Engine, question: string, b: Backends)
    requires e.initialized && e.qaChain.None?
    requires e.vectorstore.Some? && e.embeddings.Some?
    requires b.search(e.vectorstore.value, question, TopK) == Ok([])
    ensures Query(e, question, b).answer == NoHitsMessage(question)
    ensures Contains(Query(e, question, b).answer, Quoted(question))
  {
    NoHitsEchoesQuestion(question);
  }

  /** A search that raises gives the retrieval-error answer, which carries
      the error text and quotes the question. */
  lemma RetrievalErrorAnswer(e: Engine, question: string, b: Backends, error: string)
    requires e.initialized && e.qaChain.None?
    requires e.vectorstore.Some? && e.embeddings.Some?
    requires b.search(e.vectorstore.value, question, TopK) == Raised(error)
    ensures Query(e, question, b).answer == RetrievalErrorMessage(error, question)
    ensures Contains(Query(e, question, b).answer, Quoted(question))
    ensures Contains(Query(e, question, b).answer, error)
  {
    RetrievalErrorEchoesQuestion(error, question);
  }

  /** The "still initializing" template quotes the question verbatim. */
  lemma StillInitializingEchoesQuestion(question: string)
    ensures Contains(StillInitializingMessage(question), Quoted(question))
  {
    ContainsMiddle(GreetingPrefix, Quoted(question), StillInitializingSuffix);
  }

  /** Only the QA chain can answer with the empty string: every other tier
      returns a template or a retrieved passage followed by framing text. */
  lemma OnlyGenerationCanBeEmpty(e: Engine, question: string, b: Backends)
    requires Query(e, question, b).answer == ""
    ensures Query(e, question, b).engine.qaChain.Some?
    ensures b.invoke(Query(e, question, b).engine.qaChain.value, question).Ok?
  {
  }

  // ---------------------------------------------------------------------------
  // Properties of ingestion
  // ---------------------------------------------------------------------------

  /** Without the LangChain libraries ingestion changes nothing. */
  lemma AddWithoutLibrariesIsNoOp(e: Engine, documents: seq<string>, b: Backends)
    requires !b.langchain
    ensures AddDocuments(e, documents, b) == Step(e, None)
  {
  }

  /** An existing store gains exactly the new chunks, after the ones it holds,
      or is left as it was when Chroma raises. */
  lemma AddExtendsExistingStore(e: Engine, documents: seq<string>, b: Backends, chunks: seq<string>)
    requires b.langchain && e.vectorstore.Some?
    requires b.split(documents, ChunkSize, ChunkOverlap) == Ok(chunks)
    ensures b.addToStore(e.vectorstore.value, chunks).Ok? ==>
              AddDocuments(e, documents, b).engine.vectorstore
                == Some(e.vectorstore.value.(documents := e.vectorstore.value.documents + chunks))
    ensures b.addToStore(e.vectorstore.value, chunks).Raised? ==>
              AddDocuments(e, documents, b) == Step(e, None)
  {
  }

  /** Without a store, ingestion creates one from exactly the new chunks, or
      leaves none when Chroma raises. */
  lemma AddCreatesStoreFromChunks(e: Engine, documents: seq<string>, b: Backends, chunks: seq<string>)
    requires b.langchain && e.vectorstore.None?
    requires b.split(documents, ChunkSize, ChunkOverlap) == Ok(chunks)
    ensures b.createStore(e.embeddings, chunks).Ok? ==>
              AddDocuments(e, documents, b).engine.vectorstore
                == Some(VectorStore(b.createStore(e.embeddings, chunks).value, chunks))
    ensures b.createStore(e.embeddings, chunks).Raised? ==>
              AddDocuments(e, documents, b).engine.vectorstore.None?
  {
  }
}

=== FILE: sorting.dfy ===
/** `ORDER BY <column> [DESC]` over rows whose sort column is TEXT. SQL does
    not say how rows with equal keys are ordered, so the model promises only
    that the rows come out in key order and that none is lost or repeated.
 */
module Sorting {
  import opened Text

  /** May a row with key `a` be listed before a row with key `b`? */
  predicate InOrder(a: string, b: string, descending: bool)
  {
    if descending then LexLe(b, a) else LexLe(a, b)
  }

  ghost predicate SortedBy<T>(s: seq<T>, key: T -> string, descending: bool)
  {
    forall i, j :: 0 <= i < j < |s| ==> InOrder(key(s[i]), key(s[j]), descending)
  }

  lemma InOrderTotal(a: string, b: string, descending: bool)
    ensures InOrder(a, b, descending) || InOrder(b, a, descending)
  {
    LexLeTotal(a, b);
  }

  lemma InOrderTransitive(a: string, b: string, c: string, descending: bool)
    requires InOrder(a, b, descending) && InOrder(b, c, descending)
    ensures InOrder(a, c, descending)
  {
    if descending {
      LexLeTransitive(c, b, a);
    } else {
      LexLeTransitive(a, b, c);
    }
  }

  /** In a sorted list, a later row could equally have come first exactly
      when the two rows have the same key: the only freedom SQL leaves is
      among equal keys. */
  lemma SortedTiesAreEqualKeys<T>(s: seq<T>, key: T -> string, descending: bool, i: nat, j: nat)
    requires SortedBy(s, key, descending)
    requires i < j < |s|
    ensures InOrder(key(s[j]), key(s[i]), descending) <==> key(s[i]) == key(s[j])
  {
    if InOrder(key(s[j]), key(s[i]), descending) {
      LexLeAntisymmetric(key(s[i]), key(s[j]));
    }
    if key(s[i]) == key(s[j]) {
      LexLeReflexive(key(s[i]));
    }
  }

  /** A row that may precede the head of a sorted list may precede all of it. */
  lemma SortedCons<T>(x: T, s: seq<T>, key: T -> string, descending: bool)
    requires SortedBy(s, key, descending)
    requires |s| > 0 ==> InOrder(key(x), key(s[0]), descending)
    ensures SortedBy([x] + s, key, descending)
  {
    var r := [x] + s;
    forall i, j | 0 <= i < j < |r|
      ensures InOrder(key(r[i]), key(r[j]), descending)
    {
      if i == 0 && j > 1 {
        InOrderTransitive(key(x), key(s[0]), key(s[j - 1]), descending);
      }
    }
  }

  /** Inserts one row into a list already in key order. */
  function InsertBy<T>(x: T, s: seq<T>, key: T -> string, descending: bool): (r: seq<T>)
    requires SortedBy(s, key, descending)
    ensures SortedBy(r, key, descending)
    ensures multiset(r) == multiset(s) + multiset{x}
    ensures |r| == |s| + 1
    ensures |r| > 0 && (r[0] == x || (|s| > 0 && r[0] == s[0]))
    decreases |s|
  {
    if |s| == 0 then
      [x]
    else if InOrder(key(x), key(s[0]), descending) then
      SortedCons(x, s, key, descending);
      [x] + s
    else
      InOrderTotal(key(x), key(s[0]), descending);
      var tail := InsertBy(x, s[1..], key, descending);
      SortedCons(s[0], tail, key, descending);
      assert s == [s[0]] + s[1..];
      [s[0]] + tail
  }

  /** Insertion adds the one row and loses none. */
  lemma InsertByMembers<T>(x: T, s: seq<T>, key: T -> string, descending: bool)
    requires SortedBy(s, key, descending)
    ensures forall y :: y in InsertBy(x, s, key, descending) <==> y == x || y in s
  {
    var r := InsertBy(x, s, key, descending);
    forall y
      ensures y in r <==> y == x || y in s
    {
      assert y in r <==> y in multiset(r);
      assert y in s <==> y in multiset(s);
    }
  }

  /** Puts rows in key order, keeping every row exactly as often as it occurs. */
  function SortBy<T>(s: seq<T>, key: T -> string, descending: bool): (r: seq<T>)
    ensures SortedBy(r, key, descending)
    ensures multiset(r) == multiset(s)
    decreases |s|
  {
    if |s| == 0 then
      []
    else
      assert s == [s[0]] + s[1..];
      InsertBy(s[0], SortBy(s[1..], key, descending), key, descending)
  }
}

=== FILE: text.dfy ===
/** String predicates the model needs: Python's `str.startswith`, substring
    containment, and the order SQLite's default BINARY collation puts on TEXT
    values (code point by code point, a proper prefix first).
 */
module Text {

  /** `s.startswith(p)` */
  predicate StartsWith(s: string, p: string)
  {
    |p| <= |s| && s[..|p|] == p
  }

  /** `sub in s` */
  predicate Contains(s: string, sub: string)
  {
    exists i | 0 <= i <= |s| :: StartsWith(s[i..], sub)
  }

  /** Whatever is put between two strings, the middle one can be found. */
  lemma ContainsMiddle(a: string, b: string, c: string)
    ensures Contains(a + b + c, b)
  {
    var s := a + b + c;
    assert s[|a|..][..|b|] == b;
    assert StartsWith(s[|a|..], b);
  }

  lemma ContainsSelf(s: string)
    ensures Contains(s, s)
  {
    assert StartsWith(s[0..], s);
  }

  /** Text found in `s` is still found after something is put in front. */
  lemma ContainsAfter(p: string, s: string, sub: string)
    requires Contains(s, sub)
    ensures Contains(p + s, sub)
  {
    var i :| 0 <= i <= |s| && StartsWith(s[i..], sub);
    assert (p + s)[|p| + i..] == s[i..];
  }

  /** Text found in `s` is still found after something is appended. */
  lemma ContainsBefore(s: string, c: string, sub: string)
    requires Contains(s, sub)
    ensures Contains(s + c, sub)
  {
    var i :| 0 <= i <= |s| && StartsWith(s[i..], sub);
    assert (s + c)[i..][..|sub|] == s[i..][..|sub|];
  }

  /** `a <= b` for two TEXT values under SQLite's BINARY collation. Comparing
      the UTF-8 bytes, as SQLite does, orders strings exactly as comparing their
      code points does. */
  predicate LexLe(a: string, b: string)
    decreases |a|
  {
    |a| == 0 || (|b| > 0 && (a[0] < b[0] || (a[0] == b[0] && LexLe(a[1..], b[1..]))))
  }

  lemma {:induction false} LexLeReflexive(a: string)
    ensures LexLe(a, a)
    decreases |a|
  {
    if |a| > 0 {
      LexLeReflexive(a[1..]);
    }
  }

  /** Any two timestamps can be compared: the order is total. */
  lemma {:induction false} LexLeTotal(a: string, b: string)
    ensures LexLe(a, b) || LexLe(b, a)
    decreases |a|
  {
    if |a| > 0 && |b| > 0 && a[0] == b[0] {
      LexLeTotal(a[1..], b[1..]);
    }
  }

  lemma {:induction false} LexLeTransitive(a: string, b: string, c: string)
    requires LexLe(a, b) && LexLe(b, c)
    ensures LexLe(a, c)
    decreases |a|
  {
    if |a| > 0 && a[0] == b[0] && b[0] == c[0] {
      LexLeTransitive(a[1..], b[1..], c[1..]);
    }
  }

  /** Two strings each at most the other are equal, so ties in the order are
      ties between equal values. */
  lemma {:induction false} LexLeAntisymmetric(a: string, b: string)
    requires LexLe(a, b) && LexLe(b, a)
    ensures a == b
    decreases |a|
  {
    if |a| > 0 {
      LexLeAntisymmetric(a[1..], b[1..]);
      assert a == [a[0]] + a[1..];
      assert b == [b[0]] + b[1..];
    }
  }
}

=== FILE: thread_store.dfy ===
/** Conversation threads and their messages (the SQLite tables of
    backend/main.py), as an in-memory store: the `threads` table is a map from
    thread id to row, the `messages` table a sequence of rows in insertion
    order. Ids (`uuid4`) and timestamps (`datetime.now().isoformat()`) are
    parameters; timestamps are compared as SQLite compares TEXT.
 */
module ThreadStore {
  import opened Wrappers
  import opened Text
  import opened Sorting

  datatype Role = User | Assistant

  /** A `threads` row; the title column may hold NULL. */
  datatype ThreadRow = ThreadRow(title: Option<string>, createdAt: string, updatedAt: string)

  /** A `messages` row. */
  datatype MessageRow = MessageRow(id: string, threadId: string, role: Role, content: string, createdAt: string)

  datatype Store = Store(threads: map<string, ThreadRow>, messages: seq<MessageRow>)

  datatype HttpError = HttpError(status: nat, detail: string)

  /** Message ids are the `messages` table's primary key. */
  ghost predicate UniqueMessageIds(messages: seq<MessageRow>)
  {
    forall i, j :: 0 <= i < j < |messages| ==> messages[i].id != messages[j].id
  }

  function MessageIds(messages: seq<MessageRow>): set<string>
  {
    set m | m in messages :: m.id
  }

  // ---------------------------------------------------------------------------
  // Titles
  // ---------------------------------------------------------------------------

  const Untitled := "Untitled"

  /** `title or "Untitled"`: NULL and the empty title (what an empty prompt
      yields) are both falsy. */
  function DisplayTitle(title: Option<string>): (shown: string)
    ensures shown != ""
    ensures title.Some? && title.value != "" ==> shown == title.value
    ensures shown == Untitled <==> title.None? || title.value in {"", Untitled}
  {
    if title.None? || title.value == "" then Untitled else title.value
  }

  const TitleLimit: nat := 50
  const Ellipsis := "..."

  /** The title `chat` gives a new thread: the prompt, cut to 50 characters
      and marked with an ellipsis when it is longer. */
  function DeriveTitle(prompt: string): (title: string)
    ensures |title| <= TitleLimit + |Ellipsis|
    ensures |prompt| <= TitleLimit ==> title == prompt
    ensures |prompt| > TitleLimit ==>
              StartsWith(title, prompt[..TitleLimit]) && |title| == TitleLimit + |Ellipsis|
              && title[TitleLimit..] == Ellipsis
  {
    if |prompt| > TitleLimit then prompt[..TitleLimit] + Ellipsis else prompt
  }

  /** A prompt is its own title exactly when it is short enough, or when it
      is 53 characters long and already ends in the ellipsis after the cut. */
  lemma TitleIsPromptExactly(prompt: string)
    ensures DeriveTitle(prompt) == prompt <==>
              |prompt| <= TitleLimit || (|prompt| == TitleLimit + |Ellipsis| && prompt[TitleLimit..] == Ellipsis)
  {
    if |prompt| > TitleLimit && DeriveTitle(prompt) == prompt {
      assert |prompt| == TitleLimit + |Ellipsis|;
    }
    if |prompt| == TitleLimit + |Ellipsis| && prompt[TitleLimit..] == Ellipsis {
      assert prompt == prompt[..TitleLimit] + prompt[TitleLimit..];
    }
  }

  /** Deriving a title from a title changes nothing. */
  lemma DeriveTitleIdempotent(prompt: string)
    ensures DeriveTitle(DeriveTitle(prompt)) == DeriveTitle(prompt)
  {
    var t := DeriveTitle(prompt);
    if |prompt| > TitleLimit {
      assert t[..TitleLimit] == prompt[..TitleLimit];
    }
  }

  // ---------------------------------------------------------------------------
  // Listing threads
  // ---------------------------------------------------------------------------

  /** One entry of the `get_threads` listing. */
  datatype ThreadSummary = ThreadSummary(id: string, title: string, createdAt: string, updatedAt: string)

  function Summarize(id: string, row: ThreadRow): ThreadSummary
  {
    ThreadSummary(id, DisplayTitle(row.title), row.createdAt, row.updatedAt)
  }

  function UpdatedAt(t: ThreadSummary): string
  {
    t.updatedAt
  }

  /** `get_threads`: every thread once, most recently updated first. */
  method ListThreads(store: Store) returns (listing: seq<ThreadSummary>)
    ensures SortedBy(listing, UpdatedAt, true)
    ensures |listing| == |store.threads|
    ensures forall t :: t in listing ==> t.id in store.threads && t == Summarize(t.id, store.threads[t.id])
    ensures forall id :: id in store.threads ==> Summarize(id, store.threads[id]) in listing
  {
    listing := [];
    var remaining := store.threads.Keys;
    while remaining != {}
      invariant remaining <= store.threads.Keys
      invariant SortedBy(listing, UpdatedAt, true)
      invariant |listing| + |remaining| == |store.threads|
      invariant forall t :: t in listing ==>
                  t.id in store.threads && t.id !in remaining && t == Summarize(t.id, store.threads[t.id])
      invariant forall id :: id in store.threads && id !in remaining ==> Summarize(id, store.threads[id]) in listing
      decreases |remaining|
    {
      var id :| id in remaining;
      var entry := Summarize(id, store.threads[id]);
      InsertByMembers(entry, listing, UpdatedAt, true);
      listing := InsertBy(entry, listing, UpdatedAt, true);
      remaining := remaining - {id};
    }
  }

  // ---------------------------------------------------------------------------
  // Reading one thread
  // ---------------------------------------------------------------------------

  /** One message as `get_thread` reports it. */
  datatype MessageView = MessageView(id: string, role: Role, content: string, createdAt: string)

  datatype ThreadDetail = ThreadDetail(
    id: string, title: string, createdAt: string, updatedAt: string, messages: seq<MessageView>)

  function View(m: MessageRow): MessageView
  {
    MessageView(m.id, m.role, m.content, m.createdAt)
  }

  function CreatedAt(v: MessageView): string
  {
    v.createdAt
  }

  /** `SELECT ... FROM messages WHERE thread_id = ?` before ordering. */
  function ThreadMessages(messages: seq<MessageRow>, threadId: string): (r: seq<MessageView>)
    ensures |r| <= |messages|
    ensures forall i :: 0 <= i < |messages| && messages[i].threadId == threadId ==> View(messages[i]) in r
    ensures forall v :: v in r ==> exists i :: 0 <= i < |messages| && messages[i].threadId == threadId && View(messages[i]) == v
  {
    if |messages| == 0 then []
    else
      var rest := ThreadMessages(messages[1..], threadId);
      if messages[0].threadId == threadId then [View(messages[0])] + rest else rest
  }

  /** The rows of a thread are found wherever they sit in the table. */
  lemma {:induction false} ThreadMessagesAppend(a: seq<MessageRow>, b: seq<MessageRow>, threadId: string)
    ensures ThreadMessages(a + b, threadId) == ThreadMessages(a, threadId) + ThreadMessages(b, threadId)
    decreases |a|
  {
    if |a| == 0 {
      assert a + b == b;
    } else {
      assert (a + b)[1..] == a[1..] + b;
      ThreadMessagesAppend(a[1..], b, threadId);
    }
  }

  /** `get_thread`: the thread row with its messages oldest first, or 404. */
  function GetThread(store: Store, threadId: string): (r: Result<ThreadDetail, HttpError>)
    ensures r.Failure? <==> threadId !in store.threads
    ensures r.Failure? ==> r.error == HttpError(404, "Thread not found")
    ensures r.Success? ==>
              var row := store.threads[threadId];
              && r.value.id == threadId
              && r.value.title == DisplayTitle(row.title)
              && r.value.createdAt == row.createdAt && r.value.updatedAt == row.updatedAt
              && SortedBy(r.value.messages, CreatedAt, false)
              && multiset(r.value.messages) == multiset(ThreadMessages(store.messages, threadId))
  {
    if threadId !in store.threads then
      Failure(HttpError(404, "Thread not found"))
    else
      var row := store.threads[threadId];
      var messages := SortBy(ThreadMessages(store.messages, threadId), CreatedAt, false);
      Success(ThreadDetail(threadId, DisplayTitle(row.title), row.createdAt, row.updatedAt, messages))
  }

  // ---------------------------------------------------------------------------
  // Saving one exchange (the store half of `chat`)
  // ---------------------------------------------------------------------------

  datatype ChatRequest = ChatRequest(prompt: string, threadId: Option<string>)

  /** The three `uuid4()` values `chat` may draw: a thread id, then the user's
      and the assistant's message ids. */
  datatype FreshIds = FreshIds(thread: string, userMessage: string, assistantMessage: string)

  datatype ChatReply = ChatReply(threadId: string, response: string, messageId: string)

  datatype Saved = Saved(reply: ChatReply, store: Store)

  /** `not request.thread_id`: no id, or the empty one. */
  predicate StartsNewThread(request: ChatRequest)
  {
    request.threadId.None? || request.threadId.value == ""
  }

  const ThreadKeyTaken := "UNIQUE constraint failed: threads.id"
  const MessageKeyTaken := "UNIQUE constraint failed: messages.id"

  /** Would one of the inserts hit a primary key already in use? The
      transaction is then never committed and the handler answers 500. */
  predicate KeyCollision(store: Store, request: ChatRequest, ids: FreshIds)
  {
    || (StartsNewThread(request) && ids.thread in store.threads)
    || ids.userMessage in MessageIds(store.messages)
    || ids.assistantMessage in MessageIds(store.messages)
    || ids.assistantMessage == ids.userMessage
  }

  /** The thread table after creating or bumping the request's thread. */
  function TouchThread(threads: map<string, ThreadRow>, request: ChatRequest, now: string, ids: FreshIds)
    : map<string, ThreadRow>
  {
    if StartsNewThread(request) then
      threads[ids.thread := ThreadRow(Some(DeriveTitle(request.prompt)), now, now)]
    else if request.threadId.value in threads then
      var id := request.threadId.value;
      threads[id := threads[id].(updatedAt := now)]
    else
      threads
  }

  /** The two rows a successful save appends. */
  function Exchange(request: ChatRequest, response: string, now: string, ids: FreshIds, threadId: string)
    : seq<MessageRow>
  {
    [MessageRow(ids.userMessage, threadId, User, request.prompt, now),
     MessageRow(ids.assistantMessage, threadId, Assistant, response, now)]
  }

  /** Create or bump the thread, then record the prompt and the engine's
      response as two messages, all in one transaction. */
  function SaveExchange(store: Store, request: ChatRequest, response: string, now: string, ids: FreshIds)
    : (r: Result<Saved, HttpError>)
    ensures r.Failure? <==> KeyCollision(store, request, ids)
    ensures r.Failure? ==> r.error.status == 500
    ensures r.Success? ==>
              var reply := r.value.reply;
              var saved := r.value.store;
              && reply.response == response
              && reply.messageId == ids.assistantMessage
              && saved.messages == store.messages + Exchange(request, response, now, ids, reply.threadId)
    ensures r.Success? && StartsNewThread(request) ==>
              && r.value.reply.threadId == ids.thread
              && ids.thread !in store.threads
              && r.value.store.threads == store.threads[ids.thread := ThreadRow(Some(DeriveTitle(request.prompt)), now, now)]
    ensures r.Success? && !StartsNewThread(request) ==>
              && r.value.reply.threadId == request.threadId.value
              && r.value.store.threads.Keys == store.threads.Keys
              && (forall id :: id in store.threads && id != request.threadId.value ==>
                    r.value.store.threads[id] == store.threads[id])
              && (request.threadId.value in store.threads ==>
                    r.value.store.threads[request.threadId.value]
                      == store.threads[request.threadId.value].(updatedAt := now))
  {
    if StartsNewThread(request) && ids.thread in store.threads then
      Failure(HttpError(500, ThreadKeyTaken))
    else if KeyCollision(store, request, ids) then
      Failure(HttpError(500, MessageKeyTaken))
    else
      var threadId := if StartsNewThread(request) then ids.thread else request.threadId.value;
      Success(Saved(ChatReply(threadId, response, ids.assistantMessage),
                    Store(TouchThread(store.threads, request, now, ids),
                          store.messages + Exchange(request, response, now, ids, threadId))))
  }

  /** Saving keeps message ids unique. */
  lemma SaveKeepsMessageIdsUnique(store: Store, request: ChatRequest, response: string, now: string, ids: FreshIds)
    requires UniqueMessageIds(store.messages)
    requires SaveExchange(store, request, response, now, ids).Success?
    ensures UniqueMessageIds(SaveExchange(store, request, response, now, ids).value.store.messages)
  {
    var ms := SaveExchange(store, request, response, now, ids).value.store.messages;
    var n := |store.messages|;
    forall i, j | 0 <= i < j < |ms|
      ensures ms[i].id != ms[j].id
    {
      if j >= n && i < n {
        assert ms[i] == store.messages[i];
        assert ms[i].id in MessageIds(store.messages);
      }
    }
  }

  // ---------------------------------------------------------------------------
  // Deleting a thread
  // ---------------------------------------------------------------------------

  /** `DELETE FROM messages WHERE thread_id = ?` */
  function WithoutThread(messages: seq<MessageRow>, threadId: string): (r: seq<MessageRow>)
    ensures forall m :: multiset(r)[m] == if m.threadId == threadId then 0 else multiset(messages)[m]
  {
    if |messages| == 0 then []
    else
      var rest := WithoutThread(messages[1..], threadId);
      assert messages == [messages[0]] + messages[1..];
      if messages[0].threadId == threadId then rest else [messages[0]] + rest
  }

  /** `delete_thread`: the thread row and every message of the thread go;
      nothing else does. */
  function DeleteThread(store: Store, threadId: string): (r: Store)
    ensures r.threads.Keys == store.threads.Keys - {threadId}
    ensures forall id :: id in r.threads ==> r.threads[id] == store.threads[id]
    ensures forall i :: 0 <= i < |r.messages| ==> r.messages[i].threadId != threadId && r.messages[i] in store.messages
    ensures forall m :: m in store.messages && m.threadId != threadId ==> m in r.messages
  {
    var messages := WithoutThread(store.messages, threadId);
    assert forall i :: 0 <= i < |messages| ==> messages[i] in multiset(messages);
    assert forall m :: m in store.messages && m.threadId != threadId ==> m in multiset(store.messages);
    Store(store.threads - {threadId}, messages)
  }

  /** Every row is either selected for a thread or kept by the delete of
      that thread, and never both, so the selection is exactly as long as the
      thread's share of the table. */
  lemma {:induction false} ThreadMessagesCount(messages: seq<MessageRow>, threadId: string)
    ensures |ThreadMessages(messages, threadId)| + |WithoutThread(messages, threadId)| == |messages|
    decreases |messages|
  {
    if |messages| > 0 {
      ThreadMessagesCount(messages[1..], threadId);
    }
  }

  /** Filtering out a thread with no messages changes nothing. */
  lemma {:induction false} WithoutAbsentThread(messages: seq<MessageRow>, threadId: string)
    requires forall i :: 0 <= i < |messages| ==> messages[i].threadId != threadId
    ensures WithoutThread(messages, threadId) == messages
    decreases |messages|
  {
    if |messages| > 0 {
      WithoutAbsentThread(messages[1..], threadId);
      assert messages == [messages[0]] + messages[1..];
    }
  }

  lemma {:induction false} WithoutThreadAppend(a: seq<MessageRow>, b: seq<MessageRow>, threadId: string)
    ensures WithoutThread(a + b, threadId) == WithoutThread(a, threadId) + WithoutThread(b, threadId)
    decreases |a|
  {
    if |a| == 0 {
      assert a + b == b;
    } else {
      assert (a + b)[1..] == a[1..] + b;
      WithoutThreadAppend(a[1..], b, threadId);
    }
  }

  /** Deleting another thread leaves a thread's messages where they were. */
  lemma {:induction false} WithoutOtherThread(messages: seq<MessageRow>, deleted: string, kept: string)
    requires deleted != kept
    ensures ThreadMessages(WithoutThread(messages, deleted), kept) == ThreadMessages(messages, kept)
    decreases |messages|
  {
    if |messages| > 0 {
      WithoutOtherThread(messages[1..], deleted, kept);
      if messages[0].threadId != deleted {
        assert WithoutThread(messages, deleted)[1..] == WithoutThread(messages[1..], deleted);
      }
    }
  }

  /** Deleting twice is deleting once. */
  lemma DeleteThreadIdempotent(store: Store, threadId: string)
    ensures DeleteThread(DeleteThread(store, threadId), threadId) == DeleteThread(store, threadId)
  {
    WithoutAbsentThread(DeleteThread(store, threadId).messages, threadId);
  }

  /** After deletion the thread is gone, and every other thread reads back
      exactly as before. */
  lemma DeleteThreadOnlyAffectsThatThread(store: Store, deleted: string, other: string)
    ensures GetThread(DeleteThread(store, deleted), deleted).Failure?
    ensures other != deleted ==> GetThread(DeleteThread(store, deleted), other) == GetThread(store, other)
  {
    if other != deleted {
      WithoutOtherThread(store.messages, deleted, other);
    }
  }

  /** A thread with no rows has no messages to read. */
  lemma {:induction false} ThreadMessagesOfAbsentThread(messages: seq<MessageRow>, threadId: string)
    requires forall i :: 0 <= i < |messages| ==> messages[i].threadId != threadId
    ensures ThreadMessages(messages, threadId) == []
    decreases |messages|
  {
    if |messages| > 0 {
      ThreadMessagesOfAbsentThread(messages[1..], threadId);
    }
  }

  /** Saving into a new thread and then deleting that thread restores the
      store, unless the table already held messages under the new id. */
  lemma DeleteUndoesNewThread(store: Store, request: ChatRequest, response: string, now: string, ids: FreshIds)
    requires StartsNewThread(request)
    requires SaveExchange(store, request, response, now, ids).Success?
    requires forall i :: 0 <= i < |store.messages| ==> store.messages[i].threadId != ids.thread
    ensures DeleteThread(SaveExchange(store, request, response, now, ids).value.store, ids.thread) == store
  {
    var saved := SaveExchange(store, request, response, now, ids).value.store;
    var exchange := Exchange(request, response, now, ids, ids.thread);
    assert saved.messages == store.messages + exchange;
    assert saved.threads - {ids.thread} == store.threads;
    DeletedMessagesRestored(store.messages, exchange, ids.thread);
  }

  /** Filtering out a thread whose only rows were just appended gives back
      the table as it was before. */
  lemma DeletedMessagesRestored(messages: seq<MessageRow>, exchange: seq<MessageRow>, threadId: string)
    requires forall i :: 0 <= i < |messages| ==> messages[i].threadId != threadId
    requires forall i :: 0 <= i < |exchange| ==> exchange[i].threadId == threadId
    ensures WithoutThread(messages + exchange, threadId) == messages
  {
    WithoutThreadAppend(messages, exchange, threadId);
    WithoutAbsentThread(messages, threadId);
    var dropped := WithoutThread(exchange, threadId);
    assert multiset(dropped) == multiset{};
  }

  /** A new thread reads back with the derived title and exactly the two
      messages of the exchange. */
  lemma NewThreadReadsBack(store: Store, request: ChatRequest, response: string, now: string, ids: FreshIds)
    requires StartsNewThread(request)
    requires SaveExchange(store, request, response, now, ids).Success?
    requires forall i :: 0 <= i < |store.messages| ==> store.messages[i].threadId != ids.thread
    ensures GetThread(SaveExchange(store, request, response, now, ids).value.store, ids.thread).Success?
    ensures var detail := GetThread(SaveExchange(store, request, response, now, ids).value.store, ids.thread).value;
            && detail.title == DisplayTitle(Some(DeriveTitle(request.prompt)))
            && detail.createdAt == now && detail.updatedAt == now
            && multiset(detail.messages) == multiset{
                 MessageView(ids.userMessage, User, request.prompt, now),
                 MessageView(ids.assistantMessage, Assistant, response, now)}
  {
    var saved := SaveExchange(store, request, response, now, ids).value.store;
    var exchange := Exchange(request, response, now, ids, ids.thread);
    assert saved.messages == store.messages + exchange;
    ThreadMessagesAppend(store.messages, exchange, ids.thread);
    ThreadMessagesOfAbsentThread(store.messages, ids.thread);
    assert ThreadMessages(exchange, ids.thread) == [View(exchange[0]), View(exchange[1])] by {
      assert exchange[1..][1..] == [];
    }
  }
}

=== FILE: wrappers.dfy ===
/** Failure-carrying datatypes shared by the model.
- Option<T> stands for Python's `None`-able values.
- CallOutcome<T> is the result of a call into code the model cannot see: either the
  value it returned or the text (`str(e)`) of the exception it raised.
- Result<T, E> is a handler's answer: a value or an HTTP error.
 */
module Wrappers {

  datatype Option<+T> = None | Some(value: T) {

    /** The carried value, or `default` when there is none (Python's
        `d.get(key, default)` on an optional entry). */
    function GetOr(default: T): T
    {
      match this
      case Some(v) => v
      case None => default
    }
  }

  datatype CallOutcome<+T> = Ok(value: T) | Raised(error: string) {

    /** The returned value, or None when the call raised and the caller's
        `except` branch stores None instead. */
    function ToOption(): Option<T>
    {
      match this
      case Ok(v) => Some(v)
      case Raised(_) => None
    }
  }

  datatype Result<+T, +E> = Success(value: T) | Failure(error: E)
}
